=== FILE: README.md ===
# Weather ETL pipeline: a Dafny model of its two cloud functions

The pipeline has two stages.

- **Collector** (`get_weather`): reads an API key from the secret manager and asks the VisualCrossing timeline API about each of three configured zip codes. It shapes each response into a five-field record. It uploads the batch to a storage bucket as one JSON object named after the current Unix second. Every exception is caught and logged.
- **Loader** (`send_to_bq`): is triggered by the new object. It downloads the object and parses it. For each record, in array order, it:
  - adds `temperature_c`;
  - renames `temperature` to `temperature_f`;
  - inserts the record into the warehouse table `weather.tbl_condition` as a single row, with row id `file_name + zip_code`.

  It raises at the first failure and deletes the object only once every record has been inserted.

The model is functional.

- **Oracles.** Every cloud call (secret manager, HTTP, storage, warehouse) is a function-typed field of an environment datatype: `Collector.Env` or `Loader.Env`. The provider request and the warehouse insert, which a run makes once per zip code or record, take the call's position in the run as an argument, so any sequence of replies can be expressed. `json.loads` is deterministic, so the `parse` oracle takes only the text.
- **Effect trace.** Each cloud call (secret read, provider request, bucket lookup, upload, download, insert, delete) is recorded in a trace of `Cloud.Effect` values when it is made, whether or not it then fails. Client construction and `json.loads` are not cloud calls and leave no entry.
- **Outcomes.** An invocation ends `Ok`, `Raised(e)` (the exception escapes) or `Swallowed(e)` (caught and logged).
- **Python semantics.** Parsed JSON is `Json.Json`, with objects as `map<string, Json>`. `Json.Get` and `Json.Numeric` raise the exceptions Python raises for `v[key]` and for `v - 32`.
- **Celsius.** The Celsius computation is an uninterpreted function `toCelsius: real -> real`.
- **Shared loop.** Both loops are instances of one fold, `Cloud.Fold`. It runs an iteration per element in order, collects the values and stops at the first iteration that raises.

The model keeps the mismatch between the stages as the code has it:

- the Collector names the zip code field `zipcode` (get-weather-api-function/main.py:46);
- the Loader reads `zip_code` to build the row id (transform-load-weather-data/main.py:46).

Module `Pipeline` proves the consequence. For any non-empty batch the Collector uploads, the Loader makes no insert, does not delete the object, and raises.

Modules:
- `Json`: JSON values, `Result`, Python's exceptions.
- `Cloud`: effects, traces, outcomes, `Filter` and the generic loop `Fold`.
- `Collector`: `get_weather`.
- `Loader`: `send_to_bq`.
- `Pipeline`: properties of the two stages together.

## Model

| member | source | states |
|---|---|---|
| Json.Get | transform-load-weather-data/main.py:37 | `v[key]` succeeds exactly on a dict holding the key and yields its entry; a dict without the key raises KeyError(key), anything else raises TypeError |
| Json.Numeric | transform-load-weather-data/main.py:37 | `j["temperature"] - 32` accepts exactly numbers and bools (Python treats bools as numbers), keeps a number's value and turns True into 1 and False into 0; anything else raises TypeError |
| Cloud.Fold | transform-load-weather-data/main.py:35-51 | the `for` loop of both stages: when it finishes it has one value per element, the n-th being iteration n's value, and its calls are those of all iterations in order |
| Cloud.FoldSucceedsIff | get-weather-api-function/main.py:36-53 | a loop of the shape both stages use finishes without raising iff no iteration raises |
| Cloud.FoldStopsAt | transform-load-weather-data/main.py:35-51 | when iteration f is the first to raise, the loop raises that exception after the calls of iterations before f and of f itself, and nothing after |
| Cloud.FirstFailure | transform-load-weather-data/main.py:35-51 | a loop that does not finish has a first failing iteration, all iterations before it succeeding |
| Collector.UrlDeterminesRequest | get-weather-api-function/main.py:38-40 | for zip codes without `?`, two request URLs are equal iff their zip codes and keys are, so a request is identified by (zip, key) |
| Collector.ObjectNameUnique | get-weather-api-function/main.py:59 | the object name `"<seconds>.json"` is equal for two runs exactly when their clock readings at line 59, taken after the bucket lookup, fall in the same second |
| Collector.DecimalInjective | get-weather-api-function/main.py:59 | distinct second counts render to distinct decimal strings |
| Collector.CityDict | get-weather-api-function/main.py:44-50 | the record mapping succeeds iff the response has `days.datetime`, `days.temp`, `days.conditions` and `resolvedAddress`; the record then has exactly the five keys, its `zipcode` is the queried zip, and the other four values are taken from those response fields |
| Collector.Fetch | get-weather-api-function/main.py:38-50 | one iteration yields a record iff the request and parse return and the response has the needed fields; the record is the response's snapshot for that zip |
| Collector.Collect | get-weather-api-function/main.py:36-53 | the zip-code loop makes only provider requests; when it finishes, `condition_list` has one record per zip code, the k-th being what iteration k mapped from its own response |
| Collector.Store | get-weather-api-function/main.py:56-65 | the bucket lookup is the first call; the upload (bucket, object named after the run's second, the batch, `application/json`) happens iff the lookup succeeds; the run ends Ok iff both succeed; nothing raises |
| Collector.CollectAndStore | get-weather-api-function/main.py:36-65 | once the key is known: never raises, uploads at most once, and when it ends Ok it has uploaded exactly once |
| Collector.GetWeather | get-weather-api-function/main.py:18-68 | `get_weather` never raises, uploads at most once, and when it ends Ok it has uploaded exactly once |
| Collector.SecretFailureStopsRun | get-weather-api-function/main.py:31-33 | when reading the secret fails, the only call is the secret read: no provider request, no upload, and the error is swallowed |
| Collector.FailureDiscardsBatch | get-weather-api-function/main.py:36-53 | when zip code j fails after the earlier ones succeeded, the run swallows that error, has requested exactly zips 0..j in order, and uploads nothing, so the records already fetched are discarded |
| Collector.CollectCallsAreRequests | get-weather-api-function/main.py:36-53 | the zip loop makes no call other than provider requests |
| Collector.CollectSucceeds | get-weather-api-function/main.py:36-53 | when every zip succeeds, the loop finishes without raising and its calls are exactly one provider request per zip, in list order |
| Collector.CollectedRecords | get-weather-api-function/main.py:44-53 | the k-th collected record is the snapshot of the k-th response, with `zipcode` equal to the k-th zip |
| Collector.UploadedBatch | get-weather-api-function/main.py:25-65 | on a successful run the trace is: secret read, one request per zip in order, bucket lookup, upload. The upload is the only one; its payload has one record per zip, in list order, each the snapshot of its response; the run ends Ok iff the upload succeeds |
| Collector.TraceAfterCollect | get-weather-api-function/main.py:55-65 | after a finished loop the run continues with the bucket lookup and the upload of the whole accumulated list |
| Collector.UploadIffAllSucceeded | get-weather-api-function/main.py:18-65 | an upload happens iff the clients, the secret read, every zip's request and mapping, and the bucket lookup all succeed |
| Collector.ConfiguredRun | get-weather-api-function/main.py:25 | with the hard-coded list, a successful run uploads three records whose zip codes are 92101, 92071, 98101 in that order |
| Loader.Transform | transform-load-weather-data/main.py:37-40 | the transform succeeds iff the record is a dict with a numeric `temperature`; a non-dict raises TypeError, a missing `temperature` raises KeyError and a non-numeric one raises TypeError. On success `temperature` is gone, `temperature_f` holds its old value, `temperature_c` is the Celsius of it, and every other key keeps its value |
| Loader.TransformRoundTrip | transform-load-weather-data/main.py:37-40 | for a record without the derived keys, the original record is recovered from the transformed row by dropping `temperature_c` and renaming `temperature_f` back |
| Loader.RowId | transform-load-weather-data/main.py:46 | the row id exists iff the row has a string `zip_code`, and is then the file name followed by it; a missing key raises KeyError and a non-string `zip_code` raises TypeError |
| Loader.RowIdInjective | transform-load-weather-data/main.py:46 | within one object, equal row ids mean equal zip codes |
| Loader.PrepareRow | transform-load-weather-data/main.py:37-46 | a row is ready for insert iff the transform succeeds and the record has a string `zip_code`; the transform's exception comes first, and a missing `zip_code` raises KeyError("zip_code") |
| Loader.Elements | transform-load-weather-data/main.py:33-37 | iterating the parsed value yields a list's elements; an empty dict or string yields no records; a non-empty dict or string raises TypeError (its first item is a string, which `j["temperature"]` cannot subscript); numbers, bools and null raise TypeError (not iterable); every failure is TypeError |
| Loader.NonListObject | transform-load-weather-data/main.py:33-54 | for an object that parses to a non-list, an empty dict or string gives bucket lookup, download, delete and no insert; anything else raises TypeError after the download, with no insert and no delete |
| Loader.ReadBatch | transform-load-weather-data/main.py:30-35 | the bucket lookup comes first, the download second and only if the lookup succeeds; a failed lookup, download or parse raises; otherwise the records are those `Loader.Elements` gives for the parsed download: its elements if it is a list, none for an empty dict or string |
| Loader.LoadItem | transform-load-weather-data/main.py:35-51 | an iteration makes one insert exactly when its row can be prepared, namely the single-row insert of that row under its id; it succeeds iff the insert reports no errors |
| Loader.LoadAll | transform-load-weather-data/main.py:35-51 | the record loop makes only inserts; when it finishes, it ran one iteration per record and every record was prepared and inserted without errors |
| Loader.LoadCallsAreInserts | transform-load-weather-data/main.py:35-51 | the record loop makes no call other than inserts |
| Loader.LoadSucceedsIff | transform-load-weather-data/main.py:35-51 | the record loop finishes iff every record is prepared and inserted without errors |
| Loader.LoadCompletes | transform-load-weather-data/main.py:35-51 | when every record loads, the loop makes exactly one insert per record, the n-th being that of record n |
| Loader.LoadStopsAt | transform-load-weather-data/main.py:35-51 | when record f is the first to fail, the loop raises its exception after f inserts (plus record f's own insert if its row was prepared), each the insert of its record |
| Loader.LoopInserts | transform-load-weather-data/main.py:35-47 | whether or not the loop finishes, it makes at most one insert per record, and the n-th is that of record n |
| Loader.LoadAndDelete | transform-load-weather-data/main.py:35-54 | never swallows; deletes at most once, and only as the last call; ends Ok only after deleting, and then iff the delete succeeds |
| Loader.SendToBq | transform-load-weather-data/main.py:16-54 | `send_to_bq` never catches anything; the object named in the event is deleted at most once, as the final call, and the run ends Ok iff that delete happened and succeeded |
| Loader.SendToBqUnfolds | transform-load-weather-data/main.py:26-33 | an invocation that reaches the loop begins with the bucket lookup and the download of the event's object |
| Loader.LoadAndDeleteShape | transform-load-weather-data/main.py:35-54 | after the opening calls come exactly the loop's inserts, then the delete iff the loop finished; otherwise the loop's exception escapes |
| Loader.RunShape | transform-load-weather-data/main.py:26-54 | the inserts of an invocation are exactly its loop's inserts; it deletes the event's object iff the loop finishes, as the call after the last insert; otherwise it raises the loop's exception |
| Loader.InsertsInOrder | transform-load-weather-data/main.py:35-47 | records are inserted one at a time in array order: the n-th insert is the single-row insert of record n, transformed, under row id `file_name` + its `zip_code` |
| Loader.DeleteIffAllLoaded | transform-load-weather-data/main.py:35-54 | the object is deleted iff the event names it, the bucket lookup, download and parse succeed, the parsed value yields records (`ReadBatch` ties them to the parsed download's elements), and every record is transformed and inserted without errors |
| Loader.AbortOnInsertErrors | transform-load-weather-data/main.py:44-54 | if record f's insert reports errors, the invocation raises them after exactly f+1 inserts and does not delete the object |
| Loader.MissingKeyAborts | transform-load-weather-data/main.py:37-54 | a record missing `temperature`, or with a numeric temperature but no `zip_code`, raises KeyError for that key before its insert: exactly f inserts happen, no delete |
| Loader.EmptyBatchDeletes | transform-load-weather-data/main.py:35-54 | when the read yields no records the parsed object is an empty list, dict or string; the calls are then bucket lookup, download, delete, with no insert; the run ends Ok iff the delete succeeds |
| Pipeline.SnapshotLacksZipCode | get-weather-api-function/main.py:44-50 | every record the Collector shapes has `temperature` and no `zip_code` key |
| Pipeline.BatchWithoutZipCodeAborts | transform-load-weather-data/main.py:37-46 | a non-empty batch whose records lack `zip_code` makes the Loader raise before any insert, with no delete; with a numeric first temperature the exception is KeyError("zip_code") |
| Pipeline.CollectedBatchNeverLoads | get-weather-api-function/main.py:44-65 | when the Collector uploads a batch for at least one zip and the Loader is triggered by any event naming that bucket and object (other event fields are unconstrained) and reads those records back, the Loader makes no insert, no delete, and raises |

## Left out

- Client construction: the Collector's two clients are one oracle flag, `clientsOk`, whose failure is swallowed like any other. The Loader's module-level clients are assumed to exist, because they are created at import time, outside `send_to_bq`.
- The HTTP request, the download and `json.loads` are oracles (`httpGet`, `download`, `parse`). `json.dumps` is not modelled: the `Upload` effect carries the record values themselves. `Pipeline.CollectedBatchNeverLoads` therefore takes as a hypothesis that downloading and parsing the uploaded object yields the records that were uploaded.
- The Celsius arithmetic `round((t - 32) * (5/9), 1)` is the uninterpreted `toCelsius`, because it is floating-point rounding.
- Loader.Transform: numbers are `real`, so Python's int/float distinction, NaN and infinities are not modelled. In particular a JSON integer temperature beyond float range (such as 10**400) makes `(t - 32) * (5/9)` raise OverflowError in Python, while the model's transform succeeds on it.
- Every oracle call returns or raises. A provider request that never answers (get-weather-api-function/main.py:38-40 sets no timeout), a storage call that hangs, and the platform's execution time-out are not modelled.
- Retry with a 30-second deadline around the insert is one oracle reply per insert: the library's time-based retries are not modelled.
- `int(time.time())` is the parameter `now`, the clock reading at get-weather-api-function/main.py:59, taken after every provider request and the bucket lookup, not at the start of the run: the clock is not modelled.
- `logging.error` is not modelled: it is output only. The swallowed exception is kept in the outcome.
- Concurrent invocations and event redelivery racing on the delete are not modelled: they are infrastructure behaviour the code does not handle.
- Loader.Elements: iterating a non-empty dict or string is cut short. In Python it yields strings, and the first `j["temperature"]` raises TypeError before any insert. The model raises TypeError at the same point, with the same trace.
- Loader.SendToBq: the storage event is modelled as a map from field names to strings; only `bucket` and `name` are read, and any other fields may be present. Non-string `bucket` or `name` values, and the `ctx` argument, are not modelled.
- Collector.GetWeather: takes the zip list as a parameter. The deployed list is `Collector.ZipCodeList`, and `Collector.ConfiguredRun` states the run over it.
- Collector.UrlDeterminesRequest: holds only for zip codes without `?`. The three configured zip codes have none.
- Exception types are named by the operation that raised them (`ServiceError("get_bucket")` and so on), not by the library's exception classes.

=== FILE: cloud.dfy ===
/**
  The cloud calls both stages make, recorded as an effect trace, and the way an
  invocation ends. Every call is recorded when it is made, whether or not it
  then fails.
 */
module Cloud {
  import opened Json

  /**
    `HttpGet(location, apiKey)` is the weather provider's timeline request for
    a location, whose URL embeds both (Collector.Url renders it).
   */
  datatype Effect =
    | AccessSecret(name: string)
    | HttpGet(location: string, apiKey: string)
    | GetBucket(bucket: string)
    | Upload(bucket: string, blob: string, records: seq<Json>, contentType: string)
    | Download(bucket: string, blob: string)
    | InsertRows(dataset: string, table: string, rows: seq<Json>, rowIds: seq<string>)
    | Delete(bucket: string, blob: string)

  datatype Kind = SecretKind | GetKind | BucketKind | UploadKind | DownloadKind | InsertKind | DeleteKind

  function KindOf(e: Effect): Kind {
    match e
    case AccessSecret(_) => SecretKind
    case HttpGet(_, _) => GetKind
    case GetBucket(_) => BucketKind
    case Upload(_, _, _, _) => UploadKind
    case Download(_, _) => DownloadKind
    case InsertRows(_, _, _, _) => InsertKind
    case Delete(_, _) => DeleteKind
  }

  /** How an invocation ends: it returns, an exception escapes it, or it catches and logs one. */
  datatype Outcome = Ok | Raised(error: Error) | Swallowed(error: Error)

  datatype Run = Run(trace: seq<Effect>, outcome: Outcome)

  /** The calls of one kind in a trace, in the order they were made. */
  function Filter(t: seq<Effect>, k: Kind): (r: seq<Effect>)
    ensures |r| <= |t|
    ensures forall i :: 0 <= i < |r| ==> KindOf(r[i]) == k
  {
    if t == [] then []
    else if KindOf(t[0]) == k then [t[0]] + Filter(t[1..], k)
    else Filter(t[1..], k)
  }

  /** Filtering distributes over the concatenation of two traces. */
  lemma {:induction false} FilterConcat(a: seq<Effect>, b: seq<Effect>, k: Kind)
    ensures Filter(a + b, k) == Filter(a, k) + Filter(b, k)
  {
    if a == [] {
      assert a + b == b;
    } else {
      assert (a + b)[1..] == a[1..] + b;
      FilterConcat(a[1..], b, k);
    }
  }

  /** A trace whose calls are all of one kind filters to nothing under any other kind. */
  lemma {:induction false} FilterOtherKind(t: seq<Effect>, k: Kind, other: Kind)
    requires forall c :: c in t ==> KindOf(c) == k
    requires other != k
    ensures Filter(t, other) == []
  {
    if t != [] {
      FilterOtherKind(t[1..], k, other);
    }
  }

  /** A trace whose calls are all of one kind filters to itself under that kind. */
  lemma {:induction false} FilterSameKind(t: seq<Effect>, k: Kind)
    requires forall c :: c in t ==> KindOf(c) == k
    ensures Filter(t, k) == t
  {
    if t != [] {
      FilterSameKind(t[1..], k);
      assert t == [t[0]] + t[1..];
    }
  }

  /** One loop iteration: the calls it made and its value or the exception it raised. */
  datatype Step<+T> = Step(calls: seq<Effect>, result: Result<T>)

  /**
    The loop shape both stages use: run `step(k, xs[k])` for k = i, i+1, ...
    in order, collect the values, and stop at the first iteration that raises,
    whose exception the loop then raises.
   */
  function Fold<X, T>(step: (nat, X) -> Step<T>, xs: seq<X>, i: nat): (r: Step<seq<T>>)
    requires i <= |xs|
    decreases |xs| - i
    ensures r.result.Success? ==>
      && |r.result.value| == |xs| - i
      && r.calls == CallsBetween(step, xs, i, |xs|)
      && forall m :: 0 <= m < |r.result.value| ==> step(i + m, xs[i + m]).result == Success(r.result.value[m])
  {
    if i == |xs| then Step([], Success([]))
    else
      var s := step(i, xs[i]);
      match s.result
      case Failure(e) => Step(s.calls, Failure(e))
      case Success(v) =>
        var rest := Fold(step, xs, i + 1);
        match rest.result
        case Failure(e) => Step(s.calls + rest.calls, Failure(e))
        case Success(vs) => Step(s.calls + rest.calls, Success([v] + vs))
  }

  /** The calls iterations i .. j-1 make, in order. */
  ghost function CallsBetween<X, T>(step: (nat, X) -> Step<T>, xs: seq<X>, i: nat, j: nat): seq<Effect>
    requires i <= j <= |xs|
    decreases j - i
  {
    if i == j then [] else step(i, xs[i]).calls + CallsBetween(step, xs, i + 1, j)
  }

  /** The loop finishes without raising iff no iteration raises. */
  lemma {:induction false} FoldSucceedsIff<X, T>(step: (nat, X) -> Step<T>, xs: seq<X>, i: nat)
    requires i <= |xs|
    ensures Fold(step, xs, i).result.Success? <==> forall k :: i <= k < |xs| ==> step(k, xs[k]).result.Success?
    decreases |xs| - i
  {
    if i < |xs| {
      FoldSucceedsIff(step, xs, i + 1);
    }
  }

  /**
    When iteration `f` is the first to raise, the loop raises its exception
    after the calls of iterations i .. f, and makes no call for any later element.
   */
  lemma {:induction false} FoldStopsAt<X, T>(step: (nat, X) -> Step<T>, xs: seq<X>, i: nat, f: nat)
    requires i <= f < |xs|
    requires forall k :: i <= k < f ==> step(k, xs[k]).result.Success?
    requires step(f, xs[f]).result.Failure?
    ensures Fold(step, xs, i).result == Failure(step(f, xs[f]).result.error)
    ensures Fold(step, xs, i).calls == CallsBetween(step, xs, i, f) + step(f, xs[f]).calls
    decreases f - i
  {
    if i < f {
      FoldStopsAt(step, xs, i + 1, f);
      var s := step(i, xs[i]);
      var rest := Fold(step, xs, i + 1);
      assert Fold(step, xs, i).calls == s.calls + rest.calls;
      assert s.calls + (CallsBetween(step, xs, i + 1, f) + step(f, xs[f]).calls)
          == (s.calls + CallsBetween(step, xs, i + 1, f)) + step(f, xs[f]).calls;
    }
  }

  /** When each iteration makes exactly one call, the k-th call of the run belongs to the k-th iteration. */
  lemma {:induction false} CallsBetweenOneEach<X, T>(step: (nat, X) -> Step<T>, xs: seq<X>, i: nat, j: nat)
    requires i <= j <= |xs|
    requires forall k :: i <= k < j ==> |step(k, xs[k]).calls| == 1
    ensures |CallsBetween(step, xs, i, j)| == j - i
    ensures forall m :: 0 <= m < j - i ==> CallsBetween(step, xs, i, j)[m] == step(i + m, xs[i + m]).calls[0]
    decreases j - i
  {
    if i < j {
      CallsBetweenOneEach(step, xs, i + 1, j);
      var head := step(i, xs[i]).calls;
      var tail := CallsBetween(step, xs, i + 1, j);
      assert CallsBetween(step, xs, i, j) == head + tail;
      forall m | 0 <= m < j - i
        ensures CallsBetween(step, xs, i, j)[m] == step(i + m, xs[i + m]).calls[0]
      {
        if m > 0 {
          assert (head + tail)[m] == tail[m - 1];
          assert i + 1 + (m - 1) == i + m;
        }
      }
    }
  }

  /** When every iteration's calls are of kind `k`, so are the calls of the whole loop, whether or not it raises. */
  lemma {:induction false} FoldCallsOfKind<X, T>(step: (nat, X) -> Step<T>, xs: seq<X>, i: nat, k: Kind)
    requires i <= |xs|
    requires forall n :: i <= n < |xs| ==> forall c :: c in step(n, xs[n]).calls ==> KindOf(c) == k
    ensures forall c :: c in Fold(step, xs, i).calls ==> KindOf(c) == k
    decreases |xs| - i
  {
    if i < |xs| {
      FoldCallsOfKind(step, xs, i + 1, k);
    }
  }

  /** If some iteration raises, there is a first one. */
  lemma {:induction false} FirstFailure<X, T>(step: (nat, X) -> Step<T>, xs: seq<X>, i: nat) returns (f: nat)
    requires i <= |xs|
    requires !forall k :: i <= k < |xs| ==> step(k, xs[k]).result.Success?
    ensures i <= f < |xs|
    ensures forall k :: i <= k < f ==> step(k, xs[k]).result.Success?
    ensures step(f, xs[f]).result.Failure?
    decreases |xs| - i
  {
    if step(i, xs[i]).result.Failure? {
      f := i;
    } else {
      f := FirstFailure(step, xs, i + 1);
    }
  }
}

=== FILE: collector.dfy ===
/**
  The Collector stage, `get_weather`: fetch the provider API key, query the
  weather provider once per configured zip code in list order, shape each
  response into a five-field record, and upload the whole batch as one JSON
  object. Every exception is caught and logged, so the function never raises.
  Line numbers in this module refer to get-weather-api-function/main.py.
 */
module Collector {
  import opened Json
  import opened Cloud

  const ProjectId := "emiya-python-api-etl-warehouse"
  const SecretId := "VisualCrossing_API_Key"
  const BucketId := "emiya_weather_visualcrossing"
  const ZipCodeList: seq<string> := ["92101", "92071", "98101"]
  const JsonContentType := "application/json"

  /** The five keys of every record the Collector emits. */
  const SnapshotKeys: set<string> := {"condition_timestamp", "zipcode", "city", "temperature", "condition"}

  /**
    The cloud as the Collector sees it. `clientsOk` is whether constructing the
    storage and secret-manager clients succeeds; `accessSecret` is the secret
    read followed by UTF-8 decoding (None when either raises); `httpGet(k, zip, key)`
    is the body of the k-th provider request of the run, the GET of
    `Url(zip, key)` (None when it raises);
    `parse` is `json.loads`; `getBucket` and `upload` say whether those calls succeed.
   */
  datatype Env = Env(
    clientsOk: bool,
    accessSecret: string -> Option<string>,
    httpGet: (nat, string, string) -> Option<string>,
    parse: string -> Option<Json>,
    getBucket: string -> bool,
    upload: (string, string, seq<Json>) -> bool)

  function SecretName(): string {
    "projects/" + ProjectId + "/secrets/" + SecretId + "/versions/1"
  }

  const TimelineEndpoint := "https://weather.visualcrossing.com/VisualCrossingWebServices/rest/services/timeline/"

  /** The provider request for `zip` with API key `key`. */
  function Url(zip: string, key: string): string {
    TimelineEndpoint + zip + "?key=" + key
  }

  /**
    A request URL names its zip code and key: for zip codes without `?` (the
    query separator), two URLs are equal iff both parts are. This is why the
    trace records a request as `HttpGet(zip, key)`.
   */
  lemma UrlDeterminesRequest(zip: string, key: string, zip': string, key': string)
    requires '?' !in zip && '?' !in zip'
    ensures Url(zip, key) == Url(zip', key') <==> zip == zip' && key == key'
  {
    if Url(zip, key) == Url(zip', key') {
      var n := |TimelineEndpoint|;
      var a, b := zip + ("?key=" + key), zip' + ("?key=" + key');
      assert Url(zip, key) == TimelineEndpoint + a;
      assert Url(zip', key') == TimelineEndpoint + b;
      assert a == Url(zip, key)[n..] == Url(zip', key')[n..] == b;
      QuerySplit(zip, "?key=" + key, zip', "?key=" + key');
      assert key == a[|zip| + 5..] == b[|zip'| + 5..] == key';
    }
  }

  /** The position of the first `?` in `s`, or |s| when there is none. */
  function QueryStart(s: string): (n: nat)
    ensures n <= |s|
    ensures forall i :: 0 <= i < n ==> s[i] != '?'
    ensures n < |s| ==> s[n] == '?'
  {
    if s == [] || s[0] == '?' then 0 else 1 + QueryStart(s[1..])
  }

  /** In text without `?` followed by text starting with `?`, the first `?` is where the second part begins. */
  lemma QuerySplit(p: string, q: string, p': string, q': string)
    requires '?' !in p && '?' !in p'
    requires |q| > 0 && q[0] == '?' && |q'| > 0 && q'[0] == '?'
    requires p + q == p' + q'
    ensures p == p' && q == q'
  {
    var s := p + q;
    assert QueryStart(s) == |p| by {
      assert s[|p|] == q[0];
      assert forall i :: 0 <= i < |p| ==> s[i] == p[i];
    }
    assert QueryStart(s) == |p'| by {
      assert s[|p'|] == q'[0];
      assert forall i :: 0 <= i < |p'| ==> s[i] == p'[i];
    }
    assert p == s[..|p|] == p';
    assert q == s[|p|..] == q';
  }

  /** Decimal rendering of a natural number, as Python's `str(int)`: no leading zeros. */
  function Decimal(n: nat): (r: string)
    ensures |r| >= 1
    ensures n >= 10 ==> |r| >= 2
    decreases n
  {
    if n < 10 then [Digit(n)] else Decimal(n / 10) + [Digit(n % 10)]
  }

  function Digit(d: nat): (c: char)
    requires d < 10
    ensures '0' <= c <= '9'
    ensures c as int - '0' as int == d
  {
    ('0' as int + d) as char
  }

  /** The uploaded object's name, `f"{int(time.time())}.json"`, for the run's time in whole seconds. */
  function ObjectName(now: nat): string {
    Decimal(now) + ".json"
  }

  lemma {:induction false} DecimalInjective(a: nat, b: nat)
    requires Decimal(a) == Decimal(b)
    ensures a == b
    decreases a
  {
    var da, db := Decimal(a), Decimal(b);
    if a < 10 && b < 10 {
      assert Digit(a) == da[0] == db[0] == Digit(b);
    } else if a >= 10 && b >= 10 {
      assert da[|da| - 1] == Digit(a % 10);
      assert db[|db| - 1] == Digit(b % 10);
      assert da[..|da| - 1] == Decimal(a / 10);
      assert db[..|db| - 1] == Decimal(b / 10);
      DecimalInjective(a / 10, b / 10);
    } else {
      assert false;
    }
  }

  /**
    Two runs name their objects alike exactly when their clock readings at
    line 59, taken after the bucket lookup, fall in the same second.
   */
  lemma ObjectNameUnique(a: nat, b: nat)
    ensures ObjectName(a) == ObjectName(b) <==> a == b
  {
    if ObjectName(a) == ObjectName(b) {
      var na, nb := ObjectName(a), ObjectName(b);
      assert |Decimal(a)| == |Decimal(b)|;
      assert Decimal(a) == na[..|na| - 5] == nb[..|nb| - 5] == Decimal(b);
      DecimalInjective(a, b);
    }
  }

  /** The provider response carries every field the record mapping reads. */
  ghost predicate HasWeatherFields(resp: Json) {
    && resp.Obj?
    && "days" in resp.fields
    && "resolvedAddress" in resp.fields
    && resp.fields["days"].Obj?
    && "datetime" in resp.fields["days"].fields
    && "temp" in resp.fields["days"].fields
    && "conditions" in resp.fields["days"].fields
  }

  /** `record` holds exactly the five snapshot fields, taken from `resp`, with `zip` as its zip code. */
  ghost predicate IsSnapshotOf(record: Json, zip: string, resp: Json)
    requires HasWeatherFields(resp)
  {
    && record.Obj?
    && record.fields.Keys == SnapshotKeys
    && record.fields["zipcode"] == Str(zip)
    && record.fields["condition_timestamp"] == resp.fields["days"].fields["datetime"]
    && record.fields["city"] == resp.fields["resolvedAddress"]
    && record.fields["temperature"] == resp.fields["days"].fields["temp"]
    && record.fields["condition"] == resp.fields["days"].fields["conditions"]
  }

  /** `city_dict`: one record from the response for `zip`, read in the order the dict literal lists its fields. */
  function CityDict(zip: string, resp: Json): (r: Result<Json>)
    ensures r.Success? <==> HasWeatherFields(resp)
    ensures r.Success? ==> IsSnapshotOf(r.value, zip, resp)
  {
    var days :- Get(resp, "days");
    var timestamp :- Get(days, "datetime");
    var city :- Get(resp, "resolvedAddress");
    var temp :- Get(days, "temp");
    var condition :- Get(days, "conditions");
    Success(Obj(map[
      "condition_timestamp" := timestamp,
      "zipcode" := Str(zip),
      "city" := city,
      "temperature" := temp,
      "condition" := condition]))
  }

  /** The parsed body of the k-th provider request, for `zip`, if the request and the parse both return. */
  ghost function Response(env: Env, key: string, k: nat, zip: string): Option<Json> {
    match env.httpGet(k, zip, key)
    case None => None
    case Some(text) => env.parse(text)
  }

  /** The work of loop iteration `k`, for `zip`: the k-th request, the parse of its body, the record mapping. */
  function Fetch(env: Env, key: string, k: nat, zip: string): (r: Result<Json>)
    ensures r.Success? <==> Response(env, key, k, zip).Some? && HasWeatherFields(Response(env, key, k, zip).value)
    ensures r.Success? ==> IsSnapshotOf(r.value, zip, Response(env, key, k, zip).value)
  {
    match env.httpGet(k, zip, key)
    case None => Failure(ServiceError("requests.get"))
    case Some(text) =>
      match env.parse(text)
      case None => Failure(DecodeError)
      case Some(resp) => CityDict(zip, resp)
  }

  /** Loop iteration `k` (lines 36-53): one provider request, then the record `fetch` yields or its exception. */
  function FetchStep(key: string, fetch: (nat, string) -> Result<Json>): (nat, string) -> Step<Json> {
    (k: nat, zip: string) => Step([HttpGet(zip, key)], fetch(k, zip))
  }

  /** What iteration `k` does with `zip` after its request: Fetch in `env`. */
  function Fetcher(env: Env, key: string): (nat, string) -> Result<Json> {
    (k: nat, zip: string) => Fetch(env, key, k, zip)
  }

  /** The loop over `zips`: `condition_list` is the value, unless an iteration raised. */
  function Collect(env: Env, key: string, zips: seq<string>): (b: Step<seq<Json>>)
    ensures b.result.Success? ==>
      && |b.result.value| == |zips|
      && forall k :: 0 <= k < |zips| ==> Fetch(env, key, k, zips[k]) == Success(b.result.value[k])
    ensures forall c :: c in b.calls ==> KindOf(c) == GetKind
  {
    var step := FetchStep(key, Fetcher(env, key));
    FoldCallsOfKind(step, zips, 0, GetKind);
    var b := Fold(step, zips, 0);
    assert b.result.Success? ==> forall k :: 0 <= k < |zips| ==> step(k, zips[k]).result == Success(b.result.value[k]);
    b
  }

  /** Every call the loop makes is a provider request. */
  lemma CollectCallsAreRequests(env: Env, key: string, zips: seq<string>)
    ensures forall c :: c in Collect(env, key, zips).calls ==> KindOf(c) == GetKind
  {
    FoldCallsOfKind(FetchStep(key, Fetcher(env, key)), zips, 0, GetKind);
  }

  /** Lines 56-65: look up the bucket, then upload the batch as one JSON object named after `now`. */
  function Store(env: Env, now: nat, records: seq<Json>): (r: Run)
    ensures !r.outcome.Raised?
    ensures |r.trace| >= 1 && r.trace[0] == GetBucket(BucketId)
    ensures Filter(r.trace, UploadKind) ==
      if env.getBucket(BucketId) then [Upload(BucketId, ObjectName(now), records, JsonContentType)] else []
    ensures r.outcome.Ok? <==> env.getBucket(BucketId) && env.upload(BucketId, ObjectName(now), records)
  {
    var t := [GetBucket(BucketId)];
    if !env.getBucket(BucketId) then Run(t, Swallowed(ServiceError("get_bucket")))
    else
      var upload := Upload(BucketId, ObjectName(now), records, JsonContentType);
      if env.upload(BucketId, ObjectName(now), records) then Run(t + [upload], Ok)
      else Run(t + [upload], Swallowed(ServiceError("upload_from_string")))
  }

  /** Lines 36-65 once the key is known: the loop, then the upload if no iteration raised. */
  function CollectAndStore(env: Env, key: string, zips: seq<string>, now: nat): (r: Run)
    ensures !r.outcome.Raised?
    ensures |Filter(r.trace, UploadKind)| <= 1
    ensures r.outcome.Ok? ==> |Filter(r.trace, UploadKind)| == 1
  {
    var b := Collect(env, key, zips);
    CollectCallsAreRequests(env, key, zips);
    FilterOtherKind(b.calls, GetKind, UploadKind);
    match b.result
    case Failure(e) => Run(b.calls, Swallowed(e))
    case Success(records) =>
      var stored := Store(env, now, records);
      FilterConcat(b.calls, stored.trace, UploadKind);
      Run(b.calls + stored.trace, stored.outcome)
  }

  /**
    `get_weather` for a run whose clock reading at line 59 is `now` whole
    seconds after the epoch, over
    `zips` (`zip_code_list`, which the source fixes to ZipCodeList). The
    upload happens only once the secret, every provider request and the bucket
    lookup have succeeded; whatever raises is swallowed.
   */
  function GetWeather(env: Env, zips: seq<string>, now: nat): (r: Run)
    ensures !r.outcome.Raised?
    ensures |Filter(r.trace, UploadKind)| <= 1
    ensures r.outcome.Ok? ==> |Filter(r.trace, UploadKind)| == 1
  {
    if !env.clientsOk then Run([], Swallowed(ServiceError("Client")))
    else
      var t := [AccessSecret(SecretName())];
      match env.accessSecret(SecretName())
      case None => Run(t, Swallowed(ServiceError("access_secret_version")))
      case Some(key) =>
        var rest := CollectAndStore(env, key, zips, now);
        FilterConcat(t, rest.trace, UploadKind);
        Run(t + rest.trace, rest.outcome)
  }

  /** A failed secret fetch ends the run before any provider request or upload. */
  lemma SecretFailureStopsRun(env: Env, zips: seq<string>, now: nat)
    requires env.clientsOk && env.accessSecret(SecretName()).None?
    ensures GetWeather(env, zips, now).trace == [AccessSecret(SecretName())]
    ensures GetWeather(env, zips, now).outcome.Swallowed?
  {
  }

  /**
    When the zip code at position `j` fails (request, parse or field lookup)
    after the earlier ones succeeded, the run swallows that error, has asked
    the provider for exactly the zip codes up to `j`, and uploads nothing: the
    records already fetched are discarded.
   */
  lemma FailureDiscardsBatch(env: Env, zips: seq<string>, now: nat, j: nat)
    requires env.clientsOk && env.accessSecret(SecretName()).Some?
    requires j < |zips|
    requires forall k :: 0 <= k < j ==> Fetch(env, env.accessSecret(SecretName()).value, k, zips[k]).Success?
    requires Fetch(env, env.accessSecret(SecretName()).value, j, zips[j]).Failure?
    ensures var key := env.accessSecret(SecretName()).value;
      var r := GetWeather(env, zips, now);
      && r.outcome == Swallowed(Fetch(env, key, j, zips[j]).error)
      && |r.trace| == j + 2
      && r.trace[0] == AccessSecret(SecretName())
      && (forall n :: 0 <= n <= j ==> r.trace[n + 1] == HttpGet(zips[n], key))
      && Filter(r.trace, UploadKind) == []
  {
    var key := env.accessSecret(SecretName()).value;
    var fetch := Fetcher(env, key);
    assert forall k :: 0 <= k <= j ==> fetch(k, zips[k]) == Fetch(env, key, k, zips[k]);
    LoopStopsAt(key, fetch, zips, j);
    var b := Collect(env, key, zips);
    var head := [AccessSecret(SecretName())];
    var r := GetWeather(env, zips, now);
    assert r.trace == head + b.calls;
    CollectCallsAreRequests(env, key, zips);
    FilterOtherKind(b.calls, GetKind, UploadKind);
    FilterConcat(head, b.calls, UploadKind);
  }

  /** When every iteration succeeds, the loop finishes after one request per zip code, in list order. */
  lemma CollectSucceeds(env: Env, key: string, zips: seq<string>)
    requires forall k :: 0 <= k < |zips| ==> Fetch(env, key, k, zips[k]).Success?
    ensures var b := Collect(env, key, zips);
      && b.result.Success?
      && b.calls == Requests(zips, key)
  {
    var fetch := Fetcher(env, key);
    assert forall k :: 0 <= k < |zips| ==> fetch(k, zips[k]).Success?;
    LoopRequests(key, fetch, zips);
  }

  /** The provider requests for `zips`, one per zip code, in list order. */
  function Requests(zips: seq<string>, key: string): (r: seq<Effect>)
    ensures |r| == |zips|
    ensures forall n :: 0 <= n < |zips| ==> r[n] == HttpGet(zips[n], key)
  {
    if zips == [] then [] else [HttpGet(zips[0], key)] + Requests(zips[1..], key)
  }

  /** A loop whose every iteration yields a value makes one request per zip code, in list order. */
  lemma LoopRequests(key: string, fetch: (nat, string) -> Result<Json>, zips: seq<string>)
    requires forall k :: 0 <= k < |zips| ==> fetch(k, zips[k]).Success?
    ensures var b := Fold(FetchStep(key, fetch), zips, 0);
      && b.result.Success?
      && b.calls == Requests(zips, key)
  {
    LoopRequestsFrom(key, fetch, zips, 0);
    assert zips[0..] == zips;
  }

  lemma {:induction false} LoopRequestsFrom(key: string, fetch: (nat, string) -> Result<Json>, zips: seq<string>, i: nat)
    requires i <= |zips|
    requires forall k :: i <= k < |zips| ==> fetch(k, zips[k]).Success?
    ensures Fold(FetchStep(key, fetch), zips, i).result.Success?
    ensures Fold(FetchStep(key, fetch), zips, i).calls == Requests(zips[i..], key)
    decreases |zips| - i
  {
    if i < |zips| {
      LoopRequestsFrom(key, fetch, zips, i + 1);
      var step := FetchStep(key, fetch);
      assert step(i, zips[i]) == Step([HttpGet(zips[i], key)], fetch(i, zips[i]));
      assert zips[i..][1..] == zips[i + 1..];
    }
  }

  /** A loop whose iteration `j` is the first to raise makes the requests for zips 0..j, in order, and raises. */
  lemma LoopStopsAt(key: string, fetch: (nat, string) -> Result<Json>, zips: seq<string>, j: nat)
    requires j < |zips|
    requires forall k :: 0 <= k < j ==> fetch(k, zips[k]).Success?
    requires fetch(j, zips[j]).Failure?
    ensures var b := Fold(FetchStep(key, fetch), zips, 0);
      && b.result == Failure(fetch(j, zips[j]).error)
      && |b.calls| == j + 1
      && forall n :: 0 <= n <= j ==> b.calls[n] == HttpGet(zips[n], key)
  {
    var step := FetchStep(key, fetch);
    assert forall k :: 0 <= k < |zips| ==> step(k, zips[k]) == Step([HttpGet(zips[k], key)], fetch(k, zips[k]));
    FoldStopsAt(step, zips, 0, j);
    CallsBetweenOneEach(step, zips, 0, j);
    assert Fold(step, zips, 0).calls == CallsBetween(step, zips, 0, j) + [HttpGet(zips[j], key)];
  }

  /**
    A loop that finishes returns one record per zip code, in list order, each
    the mapping of its own response and carrying the zip code it was queried for.
   */
  lemma CollectedRecords(env: Env, key: string, zips: seq<string>)
    requires Collect(env, key, zips).result.Success?
    ensures var records := Collect(env, key, zips).result.value;
      && |records| == |zips|
      && forall k :: 0 <= k < |zips| ==>
           && Response(env, key, k, zips[k]).Some?
           && HasWeatherFields(Response(env, key, k, zips[k]).value)
           && IsSnapshotOf(records[k], zips[k], Response(env, key, k, zips[k]).value)
  {
    var step := FetchStep(key, Fetcher(env, key));
    var records := Collect(env, key, zips).result.value;
    forall k | 0 <= k < |zips|
      ensures Response(env, key, k, zips[k]).Some?
      ensures HasWeatherFields(Response(env, key, k, zips[k]).value)
      ensures IsSnapshotOf(records[k], zips[k], Response(env, key, k, zips[k]).value)
    {
      assert step(k, zips[k]).result == Success(records[k]);
    }
  }

  /**
    When every step succeeds, the run makes one request per zip code in list
    order, looks up the bucket, and uploads the full batch: one record per zip
    code, in list order, each built from its own response and carrying the
    zip code it was queried for. The run returns normally iff the upload call does.
   */
  lemma UploadedBatch(env: Env, zips: seq<string>, now: nat)
    requires env.clientsOk && env.accessSecret(SecretName()).Some?
    requires forall k :: 0 <= k < |zips| ==> Fetch(env, env.accessSecret(SecretName()).value, k, zips[k]).Success?
    requires env.getBucket(BucketId)
    ensures var key := env.accessSecret(SecretName()).value;
      var r := GetWeather(env, zips, now);
      && |r.trace| == |zips| + 3
      && r.trace[0] == AccessSecret(SecretName())
      && (forall n :: 0 <= n < |zips| ==> r.trace[n + 1] == HttpGet(zips[n], key))
      && r.trace[|zips| + 1] == GetBucket(BucketId)
      && r.trace[|zips| + 2].Upload?
      && Filter(r.trace, UploadKind) == [r.trace[|zips| + 2]]
      && var upload := r.trace[|zips| + 2];
      && upload.bucket == BucketId
      && upload.blob == ObjectName(now)
      && upload.contentType == JsonContentType
      && |upload.records| == |zips|
      && (forall k :: 0 <= k < |zips| ==>
            && Response(env, key, k, zips[k]).Some?
            && HasWeatherFields(Response(env, key, k, zips[k]).value)
            && IsSnapshotOf(upload.records[k], zips[k], Response(env, key, k, zips[k]).value))
      && (r.outcome.Ok? <==> env.upload(BucketId, ObjectName(now), upload.records))
  {
    var key := env.accessSecret(SecretName()).value;
    CollectSucceeds(env, key, zips);
    CollectedRecords(env, key, zips);
    var b := Collect(env, key, zips);
    var upload := Upload(BucketId, ObjectName(now), b.result.value, JsonContentType);
    var head := [AccessSecret(SecretName())];
    var tail := [GetBucket(BucketId), upload];
    TraceAfterCollect(env, zips, now, key, b);
    var r := GetWeather(env, zips, now);
    assert Filter(r.trace, UploadKind) == [upload] by {
      CollectCallsAreRequests(env, key, zips);
      FilterOtherKind(b.calls, GetKind, UploadKind);
      FilterConcat(b.calls, tail, UploadKind);
      FilterConcat(head, b.calls + tail, UploadKind);
    }
  }

  /** How the run continues once the key is known and the loop has finished without raising. */
  lemma TraceAfterCollect(env: Env, zips: seq<string>, now: nat, key: string, b: Step<seq<Json>>)
    requires env.clientsOk && env.accessSecret(SecretName()) == Some(key)
    requires b == Collect(env, key, zips) && b.result.Success?
    requires env.getBucket(BucketId)
    ensures var upload := Upload(BucketId, ObjectName(now), b.result.value, JsonContentType);
      && GetWeather(env, zips, now).trace == [AccessSecret(SecretName())] + (b.calls + [GetBucket(BucketId), upload])
      && (GetWeather(env, zips, now).outcome.Ok? <==> env.upload(BucketId, ObjectName(now), b.result.value))
  {
  }

  /** The upload happens iff the clients, the secret, every zip code's request and mapping, and the bucket lookup succeed. */
  lemma UploadIffAllSucceeded(env: Env, zips: seq<string>, now: nat)
    ensures |Filter(GetWeather(env, zips, now).trace, UploadKind)| == 1 <==>
      && env.clientsOk
      && env.accessSecret(SecretName()).Some?
      && (forall k :: 0 <= k < |zips| ==> Fetch(env, env.accessSecret(SecretName()).value, k, zips[k]).Success?)
      && env.getBucket(BucketId)
  {
    if env.clientsOk && env.accessSecret(SecretName()).Some? {
      var key := env.accessSecret(SecretName()).value;
      var step := FetchStep(key, Fetcher(env, key));
      FoldSucceedsIff(step, zips, 0);
      var b := Collect(env, key, zips);
      CollectCallsAreRequests(env, key, zips);
      FilterOtherKind(b.calls, GetKind, UploadKind);
      FilterConcat([AccessSecret(SecretName())], CollectAndStore(env, key, zips, now).trace, UploadKind);
      if b.result.Success? {
        FilterConcat(b.calls, Store(env, now, b.result.value).trace, UploadKind);
      }
    }
  }

  /** The records of the invocation's upload, if it made one. */
  ghost function Uploaded(env: Env, zips: seq<string>, now: nat): seq<Json> {
    var uploads := Filter(GetWeather(env, zips, now).trace, UploadKind);
    if |uploads| == 1 then uploads[0].records else []
  }

  /**
    The deployed run over the configured list: when everything succeeds it
    uploads one record for each of the three configured zip codes, in list order.
   */
  lemma ConfiguredRun(env: Env, now: nat)
    requires env.clientsOk && env.accessSecret(SecretName()).Some?
    requires forall k :: 0 <= k < |ZipCodeList| ==>
      Fetch(env, env.accessSecret(SecretName()).value, k, ZipCodeList[k]).Success?
    requires env.getBucket(BucketId)
    ensures var records := Uploaded(env, ZipCodeList, now);
      && |records| == 3
      && (forall k :: 0 <= k < 3 ==> records[k].Obj? && "zipcode" in records[k].fields)
      && records[0].fields["zipcode"] == Str("92101")
      && records[1].fields["zipcode"] == Str("92071")
      && records[2].fields["zipcode"] == Str("98101")
  {
    UploadedBatch(env, ZipCodeList, now);
    assert "zipcode" in SnapshotKeys;
  }
}

=== FILE: json.dfy ===
/**
  Parsed JSON values as the Python `json` module produces them, and the two
  Python operations both stages apply to them: subscripting a value by a key
  and using a value in arithmetic. Each failure is the exception Python raises.
 */
module Json {

  datatype Option<+T> = None | Some(value: T)

  /** The exceptions the pipeline can meet. `ServiceError` names the cloud call that raised. */
  datatype Error =
    | KeyError(key: string)
    | TypeError
    | DecodeError
    | ServiceError(call: string)
    | LoadError(errors: seq<Json>)

  /** A value or the exception that interrupted its computation; usable with `:-`. */
  datatype Result<+T> = Success(value: T) | Failure(error: Error) {
    predicate IsFailure() {
      Failure?
    }

    function PropagateFailure<U>(): Result<U>
      requires Failure?
    {
      Failure(error)
    }

    function Extract(): T
      requires Success?
    {
      value
    }
  }

  /** A JSON document. Numbers are reals: the model does not separate Python's int from float. */
  datatype Json =
    | Null
    | Bool(b: bool)
    | Num(n: real)
    | Str(s: string)
    | Arr(items: seq<Json>)
    | Obj(fields: map<string, Json>)

  /** `v[key]`: a dict yields the entry or raises KeyError; any other value raises TypeError. */
  function Get(v: Json, key: string): (r: Result<Json>)
    ensures r.Success? <==> v.Obj? && key in v.fields
    ensures r.Success? ==> r.value == v.fields[key]
    ensures r.Failure? && v.Obj? ==> r.error == KeyError(key)
    ensures r.Failure? && !v.Obj? ==> r.error == TypeError
  {
    match v
    case Obj(fields) => if key in fields then Success(fields[key]) else Failure(KeyError(key))
    case _ => Failure(TypeError)
  }

  /** The number `v - 32` starts from: ints, floats and (as Python allows) bools; anything else raises TypeError. */
  function Numeric(v: Json): (r: Result<real>)
    ensures r.Success? <==> v.Num? || v.Bool?
    ensures v.Num? ==> r == Success(v.n)
    ensures v.Bool? ==> r == Success(if v.b then 1.0 else 0.0)
    ensures r.Failure? ==> r.error == TypeError
  {
    match v
    case Num(n) => Success(n)
    case Bool(b) => Success(if b then 1.0 else 0.0)
    case _ => Failure(TypeError)
  }
}

=== FILE: loader.dfy ===
/**
  The Loader stage, `send_to_bq`: read the object named by the storage event,
  reshape every record (add `temperature_c`, rename `temperature` to
  `temperature_f`), insert each as a single row keyed by the object's name and
  the record's zip code, stop at the first failure, and delete the object only
  once every record has been inserted. Line numbers in this module refer to
  transform-load-weather-data/main.py.
 */
module Loader {
  import opened Json
  import opened Cloud

  const DatasetName := "weather"
  const TableName := "tbl_condition"

  /** The keys the transform writes; every other key of a record passes through untouched. */
  const DerivedKeys: set<string> := {"temperature", "temperature_c", "temperature_f"}

  /** What a warehouse insert reports: per-row errors (empty on success), or an exception from the client. */
  datatype InsertReply = RowErrors(errors: seq<Json>) | ClientError

  /**
    The cloud as the Loader sees it. `insertRows(k, rows, rowIds)` is the reply
    to the k-th insert of the invocation, retries included; `toCelsius` stands
    for `round((t - 32) * (5/9), 1)`; `delete` is whether deleting the object succeeds.
   */
  datatype Env = Env(
    getBucket: string -> bool,
    download: (string, string) -> Option<string>,
    parse: string -> Option<Json>,
    toCelsius: real -> real,
    insertRows: (nat, seq<Json>, seq<string>) -> InsertReply,
    delete: (string, string) -> bool)

  /** Every key of `m` outside `keys` is in `m'` with the same value. */
  ghost predicate AgreeOutside(m: map<string, Json>, m': map<string, Json>, keys: set<string>) {
    forall k {:trigger m[k]} :: k in m && k !in keys ==> k in m' && m'[k] == m[k]
  }

  /**
    Lines 37 and 40: add `temperature_c`, computed from `temperature`, then move
    `temperature` to `temperature_f`. Reading `temperature` from something that
    is not a dict raises TypeError, a missing key raises KeyError, and a
    non-numeric temperature raises TypeError in the subtraction.
   */
  function Transform(toCelsius: real -> real, record: Json): (r: Result<map<string, Json>>)
    ensures r.Success? <==>
      record.Obj? && "temperature" in record.fields && Numeric(record.fields["temperature"]).Success?
    ensures !record.Obj? ==> r == Failure(TypeError)
    ensures record.Obj? && "temperature" !in record.fields ==> r == Failure(KeyError("temperature"))
    ensures record.Obj? && "temperature" in record.fields && Numeric(record.fields["temperature"]).Failure? ==>
      r == Failure(TypeError)
    ensures r.Success? ==>
      && r.value.Keys == record.fields.Keys - {"temperature"} + {"temperature_c", "temperature_f"}
      && r.value["temperature_f"] == record.fields["temperature"]
      && r.value["temperature_c"] == Num(toCelsius(Numeric(record.fields["temperature"]).value))
      && AgreeOutside(record.fields, r.value, DerivedKeys)
  {
    match Get(record, "temperature")
    case Failure(e) => Failure(e)
    case Success(fahrenheit) =>
      match Numeric(fahrenheit)
      case Failure(e) => Failure(e)
      case Success(t) =>
        var withCelsius := record.fields["temperature_c" := Num(toCelsius(t))];
        var popped := withCelsius["temperature"];
        Success((withCelsius - {"temperature"})["temperature_f" := popped])
  }

  /** Undoes the transform: drop `temperature_c` and move `temperature_f` back to `temperature`. */
  function Restore(row: map<string, Json>): map<string, Json>
    requires "temperature_f" in row
  {
    (row - {"temperature_c", "temperature_f"})["temperature" := row["temperature_f"]]
  }

  /**
    The transform loses nothing: a record that had neither derived key is
    recovered exactly from its transformed form.
   */
  lemma TransformRoundTrip(toCelsius: real -> real, record: Json)
    requires Transform(toCelsius, record).Success?
    requires "temperature_c" !in record.fields && "temperature_f" !in record.fields
    ensures Restore(Transform(toCelsius, record).value) == record.fields
  {
    var row := Transform(toCelsius, record).value;
    var back := Restore(row);
    assert back.Keys == record.fields.Keys;
    forall k | k in back.Keys
      ensures back[k] == record.fields[k]
    {
      if k != "temperature" {
        assert k !in DerivedKeys;
      }
    }
  }

  /**
    Line 46: the row id is the object's name followed by the record's
    `zip_code`. A missing key raises KeyError; a zip code that is not a string
    cannot be concatenated and raises TypeError.
   */
  function RowId(fileName: string, row: map<string, Json>): (r: Result<string>)
    ensures r.Success? <==> "zip_code" in row && row["zip_code"].Str?
    ensures "zip_code" !in row ==> r == Failure(KeyError("zip_code"))
    ensures "zip_code" in row && !row["zip_code"].Str? ==> r == Failure(TypeError)
    ensures r.Success? ==>
      && |r.value| == |fileName| + |row["zip_code"].s|
      && r.value[..|fileName|] == fileName
      && r.value[|fileName|..] == row["zip_code"].s
  {
    if "zip_code" !in row then Failure(KeyError("zip_code"))
    else if row["zip_code"].Str? then Success(fileName + row["zip_code"].s)
    else Failure(TypeError)
  }

  /** Row ids from one object tell zip codes apart: equal ids mean equal zip codes. */
  lemma RowIdInjective(fileName: string, a: map<string, Json>, b: map<string, Json>)
    requires RowId(fileName, a).Success? && RowId(fileName, b).Success?
    requires RowId(fileName, a).value == RowId(fileName, b).value
    ensures a["zip_code"] == b["zip_code"]
  {
    var ida, idb := RowId(fileName, a).value, RowId(fileName, b).value;
    assert a["zip_code"].s == ida[|fileName|..] == idb[|fileName|..] == b["zip_code"].s;
  }

  /** Everything line 37 to line 46 computes before the insert: the transformed row and its row id. */
  function PrepareRow(toCelsius: real -> real, fileName: string, record: Json): (r: Result<(Json, string)>)
    ensures r.Success? <==>
      && Transform(toCelsius, record).Success?
      && "zip_code" in record.fields
      && record.fields["zip_code"].Str?
    ensures r.Success? ==>
      && r.value.0 == Obj(Transform(toCelsius, record).value)
      && r.value.1 == fileName + record.fields["zip_code"].s
    ensures Transform(toCelsius, record).Failure? ==> r == Failure(Transform(toCelsius, record).error)
    ensures Transform(toCelsius, record).Success? && "zip_code" !in record.fields ==> r == Failure(KeyError("zip_code"))
  {
    match Transform(toCelsius, record)
    case Failure(e) => Failure(e)
    case Success(row) =>
      match RowId(fileName, row)
      case Failure(e) => Failure(e)
      case Success(id) => Success((Obj(row), id))
  }

  /** The single-row insert of `row` under `rowId` (lines 44-47). */
  function InsertCall(row: Json, rowId: string): Effect {
    InsertRows(DatasetName, TableName, [row], [rowId])
  }

  /** How the loop prepares each record of the object `fileName`. */
  function Preparer(toCelsius: real -> real, fileName: string): Json -> Result<(Json, string)> {
    (record: Json) => PrepareRow(toCelsius, fileName, record)
  }

  /** The reply signalling a clean insert. */
  const NoErrors: InsertReply := RowErrors([])

  /**
    Iteration `k` of the loop, on `record`: prepare the row, insert it (this is
    the invocation's k-th insert, since every earlier iteration made exactly
    one), and raise if the insert reports errors or throws.
   */
  function LoadItem(insertRows: (nat, seq<Json>, seq<string>) -> InsertReply,
                    prepare: Json -> Result<(Json, string)>, k: nat, record: Json): (s: Step<()>)
    ensures |s.calls| <= 1
    ensures |s.calls| == 1 <==> prepare(record).Success?
    ensures |s.calls| == 1 ==> s.calls[0] == InsertCall(prepare(record).value.0, prepare(record).value.1)
    ensures s.result.Success? <==>
      prepare(record).Success? && insertRows(k, [prepare(record).value.0], [prepare(record).value.1]) == NoErrors
    ensures prepare(record).Failure? ==> s.result == Failure(prepare(record).error)
  {
    match prepare(record)
    case Failure(e) => Step([], Failure(e))
    case Success((row, rowId)) =>
      var calls := [InsertCall(row, rowId)];
      match insertRows(k, [row], [rowId])
      case ClientError => Step(calls, Failure(ServiceError("insert_rows_json")))
      case RowErrors(errors) =>
        if |errors| > 0 then Step(calls, Failure(LoadError(errors))) else Step(calls, Success(()))
  }

  function ItemStep(insertRows: (nat, seq<Json>, seq<string>) -> InsertReply,
                    prepare: Json -> Result<(Json, string)>): (nat, Json) -> Step<()> {
    (k: nat, record: Json) => LoadItem(insertRows, prepare, k, record)
  }

  /** The loop over the records (lines 35-51): in array order, stopping at the first that raises. */
  function LoadAll(insertRows: (nat, seq<Json>, seq<string>) -> InsertReply,
                   prepare: Json -> Result<(Json, string)>, items: seq<Json>): (l: Step<seq<()>>)
    ensures l.result.Success? ==>
      && |l.result.value| == |items|
      && forall k :: 0 <= k < |items| ==> LoadItem(insertRows, prepare, k, items[k]).result.Success?
    ensures forall c :: c in l.calls ==> KindOf(c) == InsertKind
  {
    var step := ItemStep(insertRows, prepare);
    FoldCallsOfKind(step, items, 0, InsertKind);
    var l := Fold(step, items, 0);
    assert l.result.Success? ==> forall k :: 0 <= k < |items| ==> step(k, items[k]).result == Success(l.result.value[k]);
    l
  }

  /** Iteration `k` ran to the end: its row was prepared and inserted without errors. */
  ghost predicate Loaded(insertRows: (nat, seq<Json>, seq<string>) -> InsertReply,
                         prepare: Json -> Result<(Json, string)>, items: seq<Json>, k: nat)
    requires k < |items|
  {
    LoadItem(insertRows, prepare, k, items[k]).result.Success?
  }

  /** `call` is the insert the loop makes for record `k`, whose row can be prepared. */
  ghost predicate IsInsertFor(prepare: Json -> Result<(Json, string)>, items: seq<Json>, k: nat, call: Effect)
    requires k < |items|
  {
    && prepare(items[k]).Success?
    && call == InsertCall(prepare(items[k]).value.0, prepare(items[k]).value.1)
  }

  /** Every call the loop makes is an insert. */
  lemma LoadCallsAreInserts(insertRows: (nat, seq<Json>, seq<string>) -> InsertReply,
                            prepare: Json -> Result<(Json, string)>, items: seq<Json>)
    ensures forall c :: c in LoadAll(insertRows, prepare, items).calls ==> KindOf(c) == InsertKind
  {
    FoldCallsOfKind(ItemStep(insertRows, prepare), items, 0, InsertKind);
  }

  /** The loop finishes without raising iff every record loads. */
  lemma LoadSucceedsIff(insertRows: (nat, seq<Json>, seq<string>) -> InsertReply,
                        prepare: Json -> Result<(Json, string)>, items: seq<Json>)
    ensures LoadAll(insertRows, prepare, items).result.Success? <==>
      forall k :: 0 <= k < |items| ==> Loaded(insertRows, prepare, items, k)
  {
    var step := ItemStep(insertRows, prepare);
    assert forall k :: 0 <= k < |items| ==>
      (step(k, items[k]).result.Success? <==> Loaded(insertRows, prepare, items, k));
    FoldSucceedsIff(step, items, 0);
  }

  /** When every record loads, the loop finishes after one insert per record, in array order. */
  lemma LoadCompletes(insertRows: (nat, seq<Json>, seq<string>) -> InsertReply,
                      prepare: Json -> Result<(Json, string)>, items: seq<Json>)
    requires forall k :: 0 <= k < |items| ==> Loaded(insertRows, prepare, items, k)
    ensures var l := LoadAll(insertRows, prepare, items);
      && l.result.Success?
      && |l.calls| == |items|
      && forall n :: 0 <= n < |items| ==> IsInsertFor(prepare, items, n, l.calls[n])
  {
    var step := ItemStep(insertRows, prepare);
    assert forall k :: 0 <= k < |items| ==>
      && step(k, items[k]) == LoadItem(insertRows, prepare, k, items[k])
      && (step(k, items[k]).result.Success? <==> Loaded(insertRows, prepare, items, k));
    FoldSucceedsIff(step, items, 0);
    CallsBetweenOneEach(step, items, 0, |items|);
    assert LoadAll(insertRows, prepare, items).calls == CallsBetween(step, items, 0, |items|);
  }

  /**
    When record `f` is the first that fails, the loop raises its exception
    after one insert per earlier record, in array order, plus the insert of
    record `f` if its row could be prepared; no later record is touched.
   */
  lemma LoadStopsAt(insertRows: (nat, seq<Json>, seq<string>) -> InsertReply,
                    prepare: Json -> Result<(Json, string)>, items: seq<Json>, f: nat)
    requires f < |items|
    requires forall k :: 0 <= k < f ==> Loaded(insertRows, prepare, items, k)
    requires !Loaded(insertRows, prepare, items, f)
    ensures var l := LoadAll(insertRows, prepare, items);
      && l.result == Failure(LoadItem(insertRows, prepare, f, items[f]).result.error)
      && |l.calls| == f + |LoadItem(insertRows, prepare, f, items[f]).calls|
      && forall n :: 0 <= n < |l.calls| ==> IsInsertFor(prepare, items, n, l.calls[n])
  {
    var step := ItemStep(insertRows, prepare);
    assert forall k :: 0 <= k < |items| ==>
      && step(k, items[k]) == LoadItem(insertRows, prepare, k, items[k])
      && (step(k, items[k]).result.Success? <==> Loaded(insertRows, prepare, items, k));
    FoldStopsAt(step, items, 0, f);
    CallsBetweenOneEach(step, items, 0, f);
    var before := CallsBetween(step, items, 0, f);
    var last := LoadItem(insertRows, prepare, f, items[f]).calls;
    var calls := LoadAll(insertRows, prepare, items).calls;
    assert calls == before + last;
    forall n | 0 <= n < |calls|
      ensures IsInsertFor(prepare, items, n, calls[n])
    {
      if n < f {
        assert calls[n] == before[n];
      } else {
        assert calls[n] == last[0];
      }
    }
  }

  /** Lines 26-33: the event's bucket and object, the bucket lookup, the download and the parse. */
  datatype Opened = Opened(trace: seq<Effect>, items: Result<seq<Json>>)

  /**
    What `for j in raw_json` iterates over, or the exception the loop's first
    iteration raises before any insert. A list yields its elements. An empty
    dict or string yields nothing. A non-empty dict or string yields strings,
    and `j["temperature"]` on a string raises TypeError. A number, bool or
    null is not iterable.
   */
  function Elements(v: Json): (r: Result<seq<Json>>)
    ensures v.Arr? ==> r == Success(v.items)
    ensures r.Success? && !v.Arr? ==> r.value == []
    ensures v.Obj? ==> (r.Success? <==> v.fields == map[])
    ensures v.Str? ==> (r.Success? <==> v.s == "")
    ensures (v.Num? || v.Bool? || v.Null?) ==> r.Failure?
    ensures r.Failure? ==> r.error == TypeError
  {
    match v
    case Arr(items) => Success(items)
    case Obj(fields) => if |fields| == 0 then Success([]) else Failure(TypeError)
    case Str(s) => if |s| == 0 then Success([]) else Failure(TypeError)
    case _ => Failure(TypeError)
  }

  /**
    Lines 30-33 and the start of line 35: the records are the elements of the
    downloaded object's parse; a failed lookup, download or parse raises.
   */
  function ReadBatch(env: Env, bucketName: string, fileName: string): (o: Opened)
    ensures 1 <= |o.trace| <= 2
    ensures o.trace[0] == GetBucket(bucketName)
    ensures |o.trace| == 2 <==> env.getBucket(bucketName)
    ensures |o.trace| == 2 ==> o.trace[1] == Download(bucketName, fileName)
    ensures o.items.Success? ==> |o.trace| == 2
    ensures !env.getBucket(bucketName) ==> o.items == Failure(ServiceError("get_bucket"))
    ensures env.getBucket(bucketName) && env.download(bucketName, fileName).None? ==>
      o.items == Failure(ServiceError("download_as_string"))
    ensures env.getBucket(bucketName) && env.download(bucketName, fileName).Some? ==>
      var text := env.download(bucketName, fileName).value;
      o.items == if env.parse(text).None? then Failure(DecodeError) else Elements(env.parse(text).value)
  {
    var t := [GetBucket(bucketName)];
    if !env.getBucket(bucketName) then Opened(t, Failure(ServiceError("get_bucket")))
    else
      var t' := t + [Download(bucketName, fileName)];
      match env.download(bucketName, fileName)
      case None => Opened(t', Failure(ServiceError("download_as_string")))
      case Some(text) =>
        match env.parse(text)
        case None => Opened(t', Failure(DecodeError))
        case Some(v) => Opened(t', Elements(v))
  }

  /** Lines 35-54 once the records are in hand: the loop, then the delete if no iteration raised. */
  function LoadAndDelete(env: Env, prepare: Json -> Result<(Json, string)>, bucketName: string, fileName: string,
                         items: seq<Json>): (r: Run)
    ensures !r.outcome.Swallowed?
    ensures |Filter(r.trace, DeleteKind)| <= 1
    ensures r.outcome.Ok? ==> |Filter(r.trace, DeleteKind)| == 1
    ensures |Filter(r.trace, DeleteKind)| == 1 ==>
      && r.trace[|r.trace| - 1] == Delete(bucketName, fileName)
      && (r.outcome.Ok? <==> env.delete(bucketName, fileName))
  {
    var l := LoadAll(env.insertRows, prepare, items);
    LoadCallsAreInserts(env.insertRows, prepare, items);
    FilterOtherKind(l.calls, InsertKind, DeleteKind);
    if l.result.Failure? then Run(l.calls, Raised(l.result.error))
    else
      var delete := Delete(bucketName, fileName);
      FilterConcat(l.calls, [delete], DeleteKind);
      if env.delete(bucketName, fileName) then Run(l.calls + [delete], Ok)
      else Run(l.calls + [delete], Raised(ServiceError("delete")))
  }

  /**
    `send_to_bq` for a storage event, given as its string-valued fields. The
    object is deleted at most once, as the invocation's last call, and only
    after every record is inserted; every failure escapes as an exception.
   */
  function SendToBq(env: Env, event: map<string, string>): (r: Run)
    ensures !r.outcome.Swallowed?
    ensures |Filter(r.trace, DeleteKind)| <= 1
    ensures |Filter(r.trace, DeleteKind)| == 1 ==>
      && "bucket" in event && "name" in event
      && r.trace[|r.trace| - 1] == Delete(event["bucket"], event["name"])
      && (r.outcome.Ok? <==> env.delete(event["bucket"], event["name"]))
    ensures r.outcome.Ok? ==> |Filter(r.trace, DeleteKind)| == 1
  {
    if "bucket" !in event then Run([], Raised(KeyError("bucket")))
    else if "name" !in event then Run([], Raised(KeyError("name")))
    else
      var bucketName, fileName := event["bucket"], event["name"];
      var o := ReadBatch(env, bucketName, fileName);
      assert Filter(o.trace, DeleteKind) == [] by {
        assert forall n :: 0 <= n < |o.trace| ==> KindOf(o.trace[n]) != DeleteKind;
        assert o.trace == [o.trace[0]] + o.trace[1..];
      }
      match o.items
      case Failure(e) => Run(o.trace, Raised(e))
      case Success(items) =>
        var rest := LoadAndDelete(env, Preparer(env.toCelsius, fileName), bucketName, fileName, items);
        FilterConcat(o.trace, rest.trace, DeleteKind);
        Run(o.trace + rest.trace, rest.outcome)
  }

  /** The event names an object whose download parses to exactly the records `items`. */
  ghost predicate Reaches(env: Env, event: map<string, string>, items: seq<Json>) {
    && "bucket" in event && "name" in event
    && ReadBatch(env, event["bucket"], event["name"]).items == Success(items)
  }

  /** An invocation that reaches the loop is the two opening calls followed by the loop and the delete. */
  lemma SendToBqUnfolds(env: Env, event: map<string, string>, items: seq<Json>)
    requires Reaches(env, event, items)
    ensures var rest := LoadAndDelete(env, Preparer(env.toCelsius, event["name"]), event["bucket"], event["name"], items);
      SendToBq(env, event)
        == Run([GetBucket(event["bucket"]), Download(event["bucket"], event["name"])] + rest.trace, rest.outcome)
  {
  }

  /** The calls after the opening two: the loop's inserts, then the delete iff the loop finished. */
  lemma LoadAndDeleteShape(env: Env, prepare: Json -> Result<(Json, string)>, bucketName: string, fileName: string,
                           items: seq<Json>)
    ensures var l := LoadAll(env.insertRows, prepare, items);
      var r := LoadAndDelete(env, prepare, bucketName, fileName, items);
      && Filter(r.trace, InsertKind) == l.calls
      && Filter(r.trace, DeleteKind) == (if l.result.Success? then [Delete(bucketName, fileName)] else [])
      && (l.result.Failure? ==> r.outcome == Raised(l.result.error))
      && (l.result.Success? ==>
            && r.trace == l.calls + [Delete(bucketName, fileName)]
            && (r.outcome.Ok? <==> env.delete(bucketName, fileName)))
  {
    var l := LoadAll(env.insertRows, prepare, items);
    LoadCallsAreInserts(env.insertRows, prepare, items);
    FilterSameKind(l.calls, InsertKind);
    FilterOtherKind(l.calls, InsertKind, DeleteKind);
    if l.result.Success? {
      DeleteAfterLoop(l.calls, bucketName, fileName);
    }
  }

  /** The loop's inserts followed by the delete: the inserts filter to themselves and the delete to itself. */
  lemma DeleteAfterLoop(calls: seq<Effect>, bucketName: string, fileName: string)
    requires forall c :: c in calls ==> KindOf(c) == InsertKind
    ensures Filter(calls + [Delete(bucketName, fileName)], InsertKind) == calls
    ensures Filter(calls + [Delete(bucketName, fileName)], DeleteKind) == [Delete(bucketName, fileName)]
  {
    var delete := [Delete(bucketName, fileName)];
    FilterSameKind(calls, InsertKind);
    FilterOtherKind(calls, InsertKind, DeleteKind);
    FilterConcat(calls, delete, InsertKind);
    FilterConcat(calls, delete, DeleteKind);
    assert Filter(delete, InsertKind) == [];
  }

  /**
    The shape of an invocation that reaches the loop: the inserts are exactly
    the loop's calls, and the object is deleted, as the last call, iff the loop
    finishes; otherwise the loop's exception escapes.
   */
  lemma RunShape(env: Env, event: map<string, string>, items: seq<Json>)
    requires Reaches(env, event, items)
    ensures var l := LoadAll(env.insertRows, Preparer(env.toCelsius, event["name"]), items);
      var r := SendToBq(env, event);
      && Filter(r.trace, InsertKind) == l.calls
      && Filter(r.trace, DeleteKind) == (if l.result.Success? then [Delete(event["bucket"], event["name"])] else [])
      && (l.result.Failure? ==> r.outcome == Raised(l.result.error))
      && (l.result.Success? ==>
            && r.trace == [GetBucket(event["bucket"]), Download(event["bucket"], event["name"])] + l.calls
                          + [Delete(event["bucket"], event["name"])]
            && (r.outcome.Ok? <==> env.delete(event["bucket"], event["name"])))
  {
    var b, n := event["bucket"], event["name"];
    var prepare := Preparer(env.toCelsius, n);
    SendToBqUnfolds(env, event, items);
    LoadAndDeleteShape(env, prepare, b, n, items);
    OpeningCallsFilter(b, n, LoadAndDelete(env, prepare, b, n, items).trace);
  }

  /** The bucket lookup and the download are neither inserts nor deletes. */
  lemma OpeningCallsFilter(bucketName: string, fileName: string, t: seq<Effect>)
    ensures Filter([GetBucket(bucketName), Download(bucketName, fileName)] + t, InsertKind) == Filter(t, InsertKind)
    ensures Filter([GetBucket(bucketName), Download(bucketName, fileName)] + t, DeleteKind) == Filter(t, DeleteKind)
  {
    var front := [GetBucket(bucketName), Download(bucketName, fileName)];
    assert Filter(front, InsertKind) == [] && Filter(front, DeleteKind) == [] by {
      assert front[1..] == [Download(bucketName, fileName)];
      assert front[1..][1..] == [];
    }
    FilterConcat(front, t, InsertKind);
    FilterConcat(front, t, DeleteKind);
  }

  /**
    `call` is the single-row insert of `record` once transformed, under row id
    `fileName` followed by the record's `zip_code`.
   */
  ghost predicate InsertOf(toCelsius: real -> real, fileName: string, record: Json, call: Effect) {
    && PrepareRow(toCelsius, fileName, record).Success?
    && call == InsertRows(DatasetName, TableName, [Obj(Transform(toCelsius, record).value)],
                          [fileName + record.fields["zip_code"].s])
  }

  /** Records are inserted one at a time, in array order, each under its own row id. */
  lemma InsertsInOrder(env: Env, event: map<string, string>, items: seq<Json>)
    requires Reaches(env, event, items)
    ensures var inserts := Filter(SendToBq(env, event).trace, InsertKind);
      && |inserts| <= |items|
      && forall n :: 0 <= n < |inserts| ==> InsertOf(env.toCelsius, event["name"], items[n], inserts[n])
  {
    var prepare := Preparer(env.toCelsius, event["name"]);
    var inserts := LoadAll(env.insertRows, prepare, items).calls;
    RunShape(env, event, items);
    LoopInserts(env.insertRows, prepare, items);
    forall n | 0 <= n < |inserts|
      ensures InsertOf(env.toCelsius, event["name"], items[n], inserts[n])
    {
      assert prepare(items[n]) == PrepareRow(env.toCelsius, event["name"], items[n]);
    }
  }

  /** Whether or not the loop finishes, its n-th call is the insert for record n. */
  lemma LoopInserts(insertRows: (nat, seq<Json>, seq<string>) -> InsertReply,
                    prepare: Json -> Result<(Json, string)>, items: seq<Json>)
    ensures var calls := LoadAll(insertRows, prepare, items).calls;
      && |calls| <= |items|
      && forall n :: 0 <= n < |calls| ==> IsInsertFor(prepare, items, n, calls[n])
  {
    var step := ItemStep(insertRows, prepare);
    if forall k :: 0 <= k < |items| ==> Loaded(insertRows, prepare, items, k) {
      LoadCompletes(insertRows, prepare, items);
    } else {
      assert forall k :: 0 <= k < |items| ==>
        (step(k, items[k]).result.Success? <==> Loaded(insertRows, prepare, items, k));
      var f := FirstFailure(step, items, 0);
      LoadStopsAt(insertRows, prepare, items, f);
    }
  }

  /**
    The object is deleted, exactly once, iff the event names it, its download
    parses to records, and every record is transformed and inserted without
    errors.
   */
  lemma DeleteIffAllLoaded(env: Env, event: map<string, string>)
    ensures |Filter(SendToBq(env, event).trace, DeleteKind)| == 1 <==>
      && "bucket" in event && "name" in event
      && var o := ReadBatch(env, event["bucket"], event["name"]);
         && o.items.Success?
         && forall k :: 0 <= k < |o.items.value| ==>
              Loaded(env.insertRows, Preparer(env.toCelsius, event["name"]), o.items.value, k)
  {
    if "bucket" in event && "name" in event {
      var o := ReadBatch(env, event["bucket"], event["name"]);
      if o.items.Success? {
        RunShape(env, event, o.items.value);
        LoadSucceedsIff(env.insertRows, Preparer(env.toCelsius, event["name"]), o.items.value);
      }
    }
  }

  /**
    If the insert of record `f` reports errors, the invocation raises them
    after exactly f + 1 inserts (none for a later record), and the object is
    not deleted.
   */
  lemma AbortOnInsertErrors(env: Env, event: map<string, string>, items: seq<Json>, f: nat, errors: seq<Json>)
    requires Reaches(env, event, items)
    requires f < |items|
    requires forall k :: 0 <= k < f ==> Loaded(env.insertRows, Preparer(env.toCelsius, event["name"]), items, k)
    requires PrepareRow(env.toCelsius, event["name"], items[f]).Success?
    requires var (row, rowId) := PrepareRow(env.toCelsius, event["name"], items[f]).value;
      env.insertRows(f, [row], [rowId]) == RowErrors(errors)
    requires |errors| > 0
    ensures SendToBq(env, event).outcome == Raised(LoadError(errors))
    ensures |Filter(SendToBq(env, event).trace, InsertKind)| == f + 1
    ensures Filter(SendToBq(env, event).trace, DeleteKind) == []
  {
    var prepare := Preparer(env.toCelsius, event["name"]);
    assert prepare(items[f]) == PrepareRow(env.toCelsius, event["name"], items[f]);
    LoadStopsAt(env.insertRows, prepare, items, f);
    RunShape(env, event, items);
  }

  /**
    A record lacking `temperature`, or with a numeric temperature but no
    `zip_code`, makes the invocation raise KeyError for that key before the
    record's insert: exactly f inserts happen and the object is not deleted.
   */
  lemma MissingKeyAborts(env: Env, event: map<string, string>, items: seq<Json>, f: nat)
    requires Reaches(env, event, items)
    requires f < |items|
    requires forall k :: 0 <= k < f ==> Loaded(env.insertRows, Preparer(env.toCelsius, event["name"]), items, k)
    requires items[f].Obj?
    requires var record := items[f].fields;
      "temperature" !in record || (Numeric(record["temperature"]).Success? && "zip_code" !in record)
    ensures SendToBq(env, event).outcome ==
      Raised(KeyError(if "temperature" !in items[f].fields then "temperature" else "zip_code"))
    ensures |Filter(SendToBq(env, event).trace, InsertKind)| == f
    ensures Filter(SendToBq(env, event).trace, DeleteKind) == []
  {
    var prepare := Preparer(env.toCelsius, event["name"]);
    assert prepare(items[f]) == PrepareRow(env.toCelsius, event["name"], items[f]);
    LoadStopsAt(env.insertRows, prepare, items, f);
    RunShape(env, event, items);
  }

  /** An object that yields no records (an empty list, dict or string): no inserts, and the object is deleted. */
  lemma EmptyBatchDeletes(env: Env, event: map<string, string>)
    requires Reaches(env, event, [])
    ensures var v := env.parse(env.download(event["bucket"], event["name"]).value).value;
      v == Arr([]) || v == Obj(map[]) || v == Str("")
    ensures SendToBq(env, event).trace ==
      [GetBucket(event["bucket"]), Download(event["bucket"], event["name"]), Delete(event["bucket"], event["name"])]
    ensures SendToBq(env, event).outcome.Ok? <==> env.delete(event["bucket"], event["name"])
  {
    RunShape(env, event, []);
  }

  /**
    An object that parses to something other than a list: an empty dict or
    string runs no iteration, so the object is deleted without any insert;
    anything else raises TypeError before any insert, and nothing is deleted.
   */
  lemma NonListObject(env: Env, event: map<string, string>, text: string, v: Json)
    requires "bucket" in event && "name" in event
    requires env.getBucket(event["bucket"])
    requires env.download(event["bucket"], event["name"]) == Some(text)
    requires env.parse(text) == Some(v)
    requires !v.Arr?
    ensures (v == Obj(map[]) || v == Str("")) ==>
      && SendToBq(env, event).trace ==
           [GetBucket(event["bucket"]), Download(event["bucket"], event["name"]), Delete(event["bucket"], event["name"])]
      && (SendToBq(env, event).outcome.Ok? <==> env.delete(event["bucket"], event["name"]))
    ensures !(v == Obj(map[]) || v == Str("")) ==>
      && SendToBq(env, event).trace == [GetBucket(event["bucket"]), Download(event["bucket"], event["name"])]
      && SendToBq(env, event).outcome == Raised(TypeError)
  {
    if v == Obj(map[]) || v == Str("") {
      EmptyBatchDeletes(env, event);
    }
  }
}

=== FILE: pipeline.dfy ===
/**
  The two stages together. The Collector names a record's zip code `zipcode`;
  the Loader builds each row id from `zip_code`. So every record the Collector
  produces makes the Loader raise before that record's insert, and a batch the
  Collector uploads is never loaded and never deleted.
 */
module Pipeline {
  import opened Json
  import opened Cloud
  import Collector
  import Loader

  /** A record shaped by the Collector has a `temperature` but no `zip_code`. */
  lemma SnapshotLacksZipCode(record: Json, zip: string, resp: Json)
    requires Collector.HasWeatherFields(resp)
    requires Collector.IsSnapshotOf(record, zip, resp)
    ensures record.Obj? && "temperature" in record.fields && "zip_code" !in record.fields
  {
    assert "zip_code" !in Collector.SnapshotKeys;
  }

  /**
    A non-empty batch whose records all lack `zip_code` makes the Loader raise
    before its first insert: no insert and no delete happen. When the first
    record's temperature is numeric the exception is KeyError("zip_code").
   */
  lemma BatchWithoutZipCodeAborts(env: Loader.Env, event: map<string, string>, items: seq<Json>)
    requires Loader.Reaches(env, event, items)
    requires |items| > 0
    requires forall k :: 0 <= k < |items| ==> items[k].Obj? && "zip_code" !in items[k].fields
    ensures Filter(Loader.SendToBq(env, event).trace, InsertKind) == []
    ensures Filter(Loader.SendToBq(env, event).trace, DeleteKind) == []
    ensures Loader.SendToBq(env, event).outcome.Raised?
    ensures "temperature" in items[0].fields && Numeric(items[0].fields["temperature"]).Success? ==>
      Loader.SendToBq(env, event).outcome == Raised(KeyError("zip_code"))
  {
    var prepare := Loader.Preparer(env.toCelsius, event["name"]);
    assert prepare(items[0]) == Loader.PrepareRow(env.toCelsius, event["name"], items[0]);
    Loader.LoadStopsAt(env.insertRows, prepare, items, 0);
    Loader.RunShape(env, event, items);
  }

  /**
    End to end: when the Collector uploads a batch for at least one zip code
    and the Loader is triggered by that object and reads the same records back,
    the Loader inserts nothing, does not delete the object, and raises.
   */
  lemma CollectedBatchNeverLoads(cenv: Collector.Env, zips: seq<string>, now: nat,
                                 lenv: Loader.Env, event: map<string, string>)
    requires cenv.clientsOk && cenv.accessSecret(Collector.SecretName()).Some?
    requires forall k :: 0 <= k < |zips| ==>
      Collector.Fetch(cenv, cenv.accessSecret(Collector.SecretName()).value, k, zips[k]).Success?
    requires cenv.getBucket(Collector.BucketId)
    requires |zips| > 0
    requires "bucket" in event && event["bucket"] == Collector.BucketId
    requires "name" in event && event["name"] == Collector.ObjectName(now)
    requires Loader.Reaches(lenv, event, Collector.Uploaded(cenv, zips, now))
    ensures |Collector.Uploaded(cenv, zips, now)| == |zips|
    ensures Filter(Loader.SendToBq(lenv, event).trace, InsertKind) == []
    ensures Filter(Loader.SendToBq(lenv, event).trace, DeleteKind) == []
    ensures Loader.SendToBq(lenv, event).outcome.Raised?
  {
    var key := cenv.accessSecret(Collector.SecretName()).value;
    Collector.UploadedBatch(cenv, zips, now);
    var records := Collector.Uploaded(cenv, zips, now);
    forall k | 0 <= k < |records|
      ensures records[k].Obj? && "zip_code" !in records[k].fields
    {
      SnapshotLacksZipCode(records[k], zips[k], Collector.Response(cenv, key, k, zips[k]).value);
    }
    BatchWithoutZipCodeAborts(lenv, event, records);
  }
}
